=== FILE: README.md ===
# BLE central controller — a Dafny model

This project models the controller of an Android app that acts as a
Bluetooth Low Energy central: the `Central` class and the `Peripheral` value it
manages. The controller:

- scans for peripherals and keeps a registry of them, one entry per hardware
  address, where a rediscovered address replaces its entry in place;
- decides whether a peripheral can be connected, meaning it advertises the
  configured service;
- connects over GATT, subscribes to the RX characteristic, and writes a
  greeting to the TX characteristic;
- echoes every notification on the RX characteristic back, when TX can be
  found, as `hex02(counter) + payload + "\0"`;
- reconnects a lost link exactly when the shared manual-disconnect flag is
  false at the moment the loss is reported. The flag is one field for all
  links, so this is not the same as "every loss the user did not ask for":
  a new attempt that was started while another link was held and is lost
  before it connects is reported as manual and not retried
  (`LostBeforeConnectedStaysDown`), while a superseded link whose loss arrives
  after the new link connected is retried although the controller itself
  asked for it (`SupersededLinkReconnects`).

The model is a pure state machine. `CentralLogic.Central` is the controller's
state:

- whether an adapter was found;
- the registry;
- whether a scan task exists;
- every link opened so far;
- the held link;
- the manual-disconnect flag;
- the receive counter.

`CentralLogic.Step(cfg, state, event)` returns a `Reaction`: the next state and,
in call order, the outputs the controller produces. These are the listener
callbacks (`onScanned`, `onConnected`, `onReceived`, …) and the platform
requests (start a scan, `connectGatt`, `discoverServices`, `writeDescriptor`,
`writeCharacteristic`, `gatt.connect()`, …).

Each `connectGatt` call opens a new link. Its id is its position in
`links`, and the link holds the peripheral that its callback object captured.
Platform callbacks name the link they arrive on. This lets the model describe
a stale callback from a superseded link, which the code handles with the
same shared fields as the current one. The boolean results of platform calls
are inputs carried on the events: whether the device resolved, whether
`discoverServices` was accepted, `setCharacteristicNotification`, and
`writeDescriptor`, and whether `connectGatt` returned a handle. The
discovered GATT database is a list of services
searched first-match.

Modules:

- `Options`, `Uuids`: option type, UUIDs and `List.contains`.
- `Peripherals`: scan results, the `Peripheral(ScanResult)` constructor,
  `equals` by address, `setConnected`.
- `Registry`: `indexOf`, the upsert done by the discovery callback, and
  the registry after any sequence of discoveries.
- `EchoFrame`: `%02X` formatting of the counter, the echo frame, and its
  parser.
- `Gatt`: platform constants and first-match attribute lookups.
- `CentralLogic`: the controller's state, events, outputs and one handler per
  public method and callback.
- `CentralProperties`: properties of runs and of handler sequences.

Behaviour of `Central` worth noting:

- A new scan does not clear the registry. Only the scan task is replaced.
- Scanning before an adapter was found dereferences null inside the scanner;
  only the stop of the previous scan task takes effect.
- The manual-disconnect flag is reset when a link reports CONNECTED. It is not
  reset after a disconnect.
- `onConnected` fires as soon as `discoverServices()` is accepted. This is
  before the subscription and the greeting.
- When `discoverServices()` is refused, `onConnectFail` fires, but the link
  stays held.

## Model

| member | source | states |
|---|---|---|
| Uuids.Contains | app/src/main/java/com/vinaya/blecentralrole/logic/Central.java:142 | `List.contains`: true exactly when some position of the list holds the UUID |
| Peripherals.UnwrapAll | app/src/main/java/com/vinaya/blecentralrole/model/Peripheral.java:41-43 | every advertised `ParcelUuid` is unwrapped, in order, none dropped or added |
| Peripherals.ServiceUuidsOf | app/src/main/java/com/vinaya/blecentralrole/model/Peripheral.java:34-44 | a missing scan record or a missing service list yields no UUIDs; otherwise the UUIDs of the list, position by position |
| Peripherals.NewPeripheral | app/src/main/java/com/vinaya/blecentralrole/model/Peripheral.java:23-32 | the new peripheral has the result's address, name and RSSI, is not connected, and contains a UUID exactly when the scan record advertised it |
| Peripherals.Equals | app/src/main/java/com/vinaya/blecentralrole/model/Peripheral.java:46-54 | an object equals itself; null and objects of other classes are never equal; two peripherals are equal exactly when their addresses are |
| Peripherals.SetConnected | app/src/main/java/com/vinaya/blecentralrole/model/Peripheral.java:80-82 | the connected flag takes the given value; device, RSSI and services are unchanged |
| Peripherals.EqualsIsEquivalence | app/src/main/java/com/vinaya/blecentralrole/model/Peripheral.java:46-54 | peripheral equality is reflexive, symmetric and transitive |
| Peripherals.EqualsIgnoresState | app/src/main/java/com/vinaya/blecentralrole/model/Peripheral.java:52-53 | name, RSSI, services and the connected flag take no part in equality, so a peripheral stays equal to itself across `setConnected` |
| Registry.IndexOf | app/src/main/java/com/vinaya/blecentralrole/logic/Central.java:118 | -1 exactly when no entry has the address; otherwise the first entry that the peripheral equals |
| Registry.Upsert | app/src/main/java/com/vinaya/blecentralrole/logic/Central.java:118-125 | the peripheral is in the result; the address set gains only its address; a new address is appended at the end; a known address is replaced in place; every other entry is untouched; no duplicate address is introduced |
| Registry.RediscoveryReplacesLast | app/src/main/java/com/vinaya/blecentralrole/logic/Central.java:118-125 | discovering a new address appends it, and rediscovering that address replaces the same entry instead of appending again |
| Registry.UpsertAllKeepsIndices | app/src/main/java/com/vinaya/blecentralrole/logic/Central.java:118-125 | over any sequence of discoveries the list never shrinks, and every address keeps its position |
| Registry.UpsertAllDistinct | app/src/main/java/com/vinaya/blecentralrole/logic/Central.java:118-125 | over any sequence of discoveries a duplicate-free list stays duplicate-free, and its addresses are the old ones plus those discovered |
| Registry.UpsertAllUntouched | app/src/main/java/com/vinaya/blecentralrole/logic/Central.java:118-125 | an entry whose address was never rediscovered is left exactly as it was |
| Registry.UpsertAllLatest | app/src/main/java/com/vinaya/blecentralrole/logic/Central.java:118-125 | every rediscovered address holds the latest peripheral discovered there |
| Registry.CollectSpec | app/src/main/java/com/vinaya/blecentralrole/logic/Central.java:115-128 | from an empty list, the discovered peripherals leave one entry per distinct address seen, each being the latest seen there, so the list is never longer than the number of discoveries |
| EchoFrame.Hex02 | app/src/main/java/com/vinaya/blecentralrole/logic/Central.java:246 | `%02X` gives upper-case hex digits, at least two; exactly two when the value is below 256; and no leading zero beyond the padding |
| EchoFrame.Hex02RoundTrip | app/src/main/java/com/vinaya/blecentralrole/logic/Central.java:246 | reading the formatted counter as hex gives back the counter |
| EchoFrame.Hex02OfTwoDigits | app/src/main/java/com/vinaya/blecentralrole/logic/Central.java:246 | any two upper-case hex digits are the `%02X` rendering of their value, so the rendering below 256 is unique |
| EchoFrame.Echo | app/src/main/java/com/vinaya/blecentralrole/logic/Central.java:247 | the frame is the counter's digits, then the payload unchanged, then a single NUL terminator |
| EchoFrame.EchoRoundTrip | app/src/main/java/com/vinaya/blecentralrole/logic/Central.java:246-247 | for a counter below 256, parsing the echo frame gives back the counter and the payload |
| EchoFrame.ParseEchoSound | app/src/main/java/com/vinaya/blecentralrole/logic/Central.java:246-247 | every frame that parses is exactly the echo of the counter and payload it parses to |
| EchoFrame.EchoExamples | app/src/main/java/com/vinaya/blecentralrole/logic/Central.java:246-247 | counter 1 and payload `hi` give `01hi` plus NUL; 255 renders as `FF`; 256 renders as three digits, `100` |
| Gatt.FirstIndexWithUuid | app/src/main/java/com/vinaya/blecentralrole/logic/Central.java:213-219 | the lookup behind `getService`/`getCharacteristic`/`getDescriptor` finds nothing exactly when no attribute has the UUID; otherwise it finds the first one that has it |
| Gatt.CharacteristicLookup | app/src/main/java/com/vinaya/blecentralrole/logic/Central.java:216-220 | `getCharacteristic` returns non-null exactly when the characteristic is present, and returns one with the UUID asked for |
| Gatt.DescriptorLookup | app/src/main/java/com/vinaya/blecentralrole/logic/Central.java:264-265 | `getDescriptor` returns non-null exactly when the descriptor is present, and returns one with the UUID asked for |
| CentralLogic.CheckAndStartStep | app/src/main/java/com/vinaya/blecentralrole/logic/Central.java:89-97 | the result is true exactly when an adapter exists and is enabled; the adapter is remembered even when disabled; nothing else changes |
| CentralLogic.StopScanStep | app/src/main/java/com/vinaya/blecentralrole/logic/Central.java:272-276 | a scan task, if there is one, is asked to stop; with no task nothing happens; the state is unchanged |
| CentralLogic.ScanStep | app/src/main/java/com/vinaya/blecentralrole/logic/Central.java:105-113 | any previous scan is stopped before a new one starts and a scan task is recorded; without an adapter the scanner throws before a task is recorded, so only the stop takes effect; the registry is kept either way |
| CentralLogic.DiscoveredStep | app/src/main/java/com/vinaya/blecentralrole/logic/Central.java:115-128 | a null discovery changes nothing and reports nothing; any other is upserted, leaving the registry one longer at most with the address added and no duplicates, and the whole list is reported once |
| CentralLogic.ScanFailedStep | app/src/main/java/com/vinaya/blecentralrole/logic/Central.java:131-133 | the scanner's error code is passed to the listener unchanged, and nothing else happens |
| CentralLogic.CanConnect | app/src/main/java/com/vinaya/blecentralrole/logic/Central.java:141-143 | true exactly when the peripheral advertised the configured service UUID |
| CentralLogic.DisconnectStep | app/src/main/java/com/vinaya/blecentralrole/logic/Central.java:285-290 | with no link held nothing happens; otherwise the flag becomes manual and teardown of the held link is requested |
| CentralLogic.StopStep | app/src/main/java/com/vinaya/blecentralrole/logic/Central.java:278-281 | stops the scan, then disconnects; the listener hears nothing |
| CentralLogic.ConnectStep | app/src/main/java/com/vinaya/blecentralrole/logic/Central.java:151-172 | with no adapter or an unresolvable device, only `onConnectFail` fires and nothing changes; otherwise any held link is torn down first (setting the manual flag) and a new link is opened to the peripheral's address; it is held when `connectGatt` returns a handle, and no link is held when it returns null |
| CentralLogic.LinkConnectedStep | app/src/main/java/com/vinaya/blecentralrole/logic/Central.java:178-186 | the manual flag is cleared and discovery requested; if discovery is accepted, `onConnected` fires and that link's peripheral becomes connected, otherwise only `onConnectFail` fires; other links are untouched |
| CentralLogic.LinkDisconnectedStep | app/src/main/java/com/vinaya/blecentralrole/logic/Central.java:188-199 | the link's peripheral becomes not connected; `onDisconnected` reports the current flag; the same link is reconnected exactly when the flag is false; the flag is kept |
| CentralLogic.ConnectionStateChangeStep | app/src/main/java/com/vinaya/blecentralrole/logic/Central.java:174-201 | CONNECTED and DISCONNECTED run their handlers; any other new state is ignored |
| CentralLogic.Subscribe | app/src/main/java/com/vinaya/blecentralrole/logic/Central.java:260-269 | succeeds exactly when notification is accepted, the configuration descriptor exists and its write of `ENABLE_NOTIFICATION_VALUE` is accepted; the descriptor is written only when the first two hold |
| CentralLogic.ServicesDiscoveredStep | app/src/main/java/com/vinaya/blecentralrole/logic/Central.java:204-230 | never calls the listener; nothing happens on a failed status; RX is subscribed exactly when the service, TX and RX are all found; the greeting is written exactly when every check passes, and then comes after the two subscription steps; a missing service, TX or RX emits nothing at all |
| CentralLogic.CharacteristicChangedStep | app/src/main/java/com/vinaya/blecentralrole/logic/Central.java:235-255 | anything but RX is ignored; for RX the payload goes to `onReceived` first, the counter goes up by one, and the echo of the new counter is written exactly when TX can be found |
| CentralLogic.Step | app/src/main/java/com/vinaya/blecentralrole/logic/Central.java:37-45 | every event keeps the registry free of duplicate addresses and the held link among the opened ones; the counter never goes down; links are never forgotten and keep their addresses |
| CentralLogic.Run | app/src/main/java/com/vinaya/blecentralrole/logic/Central.java:37-45 | over any sequence of events the registry stays duplicate-free, the held link stays known, and the counter never goes down |
| CentralProperties.StepCounter | app/src/main/java/com/vinaya/blecentralrole/logic/Central.java:243-246 | within one event, the counter grows by the number of payloads delivered to `onReceived` |
| CentralProperties.RunCounter | app/src/main/java/com/vinaya/blecentralrole/logic/Central.java:243-246 | over any run, the counter equals its start plus the payloads delivered, so connecting and disconnecting never reset it |
| CentralProperties.RunRegistry | app/src/main/java/com/vinaya/blecentralrole/logic/Central.java:115-128 | over any run, the registry is its start with every non-null discovery upserted in order, and no other event touches it |
| CentralProperties.RegistryFromStart | app/src/main/java/com/vinaya/blecentralrole/logic/Central.java:115-128 | from a new controller, the reported list has one entry per distinct address discovered, each the latest peripheral seen there |
| CentralProperties.RediscoveryReplaces | app/src/main/java/com/vinaya/blecentralrole/logic/Central.java:118-127 | two discoveries at the same new address leave a single entry, the later one, and report the list once after each |
| CentralProperties.ConnectThenConnected | app/src/main/java/com/vinaya/blecentralrole/logic/Central.java:168-186 | a successful connect followed by CONNECTED holds the new link and its peripheral connected, clears the flag, and never reports a connect failure |
| CentralProperties.InvoluntaryLossReconnects | app/src/main/java/com/vinaya/blecentralrole/logic/Central.java:172-199 | after a connection that reaches the greeting, a loss the user did not ask for is reported as not manual and is followed by exactly one reconnect of that link |
| CentralProperties.ManualDisconnectStaysDown | app/src/main/java/com/vinaya/blecentralrole/logic/Central.java:188-199 | a disconnect the user asked for is reported as manual, and no reconnect follows |
| CentralProperties.CanConnectScanned | app/src/main/java/com/vinaya/blecentralrole/logic/Central.java:141-143 | a peripheral built from a scan result can be connected exactly when that result's advertisement listed the configured service UUID |
| CentralProperties.DisconnectTwice | app/src/main/java/com/vinaya/blecentralrole/logic/Central.java:285-290 | the held link is never released, so a repeated `disconnect` changes no more state and requests teardown of the same link again |
| CentralProperties.StopTwice | app/src/main/java/com/vinaya/blecentralrole/logic/Central.java:272-281 | neither the scan task nor the held link is released, so a repeated `stop` has the same effect and repeats the same requests |
| CentralProperties.LostBeforeConnectedStaysDown | app/src/main/java/com/vinaya/blecentralrole/logic/Central.java:168-199 | a connect made while a link is held sets the shared flag, so if the new attempt is lost before CONNECTED the loss is reported as manual and nothing reconnects |
| CentralProperties.NullHandleNotDisconnected | app/src/main/java/com/vinaya/blecentralrole/logic/Central.java:172 | after `connectGatt` returned null no link is held, and a following `disconnect` sets no flag and requests nothing |
| CentralProperties.SupersededLinkReconnects | app/src/main/java/com/vinaya/blecentralrole/logic/Central.java:174-199 | the flag is shared by all links: if the new link connects before the superseded one reports its loss, that loss is reported as not manual and the old link is reconnected while the new one is held |

## Left out

- Android I/O is not modelled: the system services, the `Context`, resources, logging, the UI activities and the list adapter. Platform calls appear as requests in the outputs, and their boolean results appear as event fields.
- The scanner wrapper (`BLEScanner`, `BLEScannerV21`) is not part of this model. It appears only as the `StartScan`/`StopScanTask` requests and the `Discovered`/`ScanFailed` events it delivers.
- `UUIDRepository` is not part of this model. The service, TX and RX UUIDs it supplies are fields of the `Config` parameter. So is the notification descriptor's UUID, which is known only from its use at Central.java:264. The greeting is also a `Config` field: `Central` reads it from the application's resources (`R.string.str_ready`, Central.java:227).
- Threads are not modelled. Callbacks arrive on binder threads, and the registry is a synchronized list. Events are handled one at a time, in the order given.
- CentralLogic.ConnectStep: outputs do not name the listener they reach. Each `connect` passes its own listener, captured by that link's callback object. A callback output therefore reaches the listener of the `connect` call that opened the link its event names. A fast-fail `onConnectFail` reaches the listener of the failing call.
- CentralLogic.ConnectStep: when `connectGatt` returns null, the model still appends a link, and that link still reacts to callbacks, for example a DISCONNECTED that requests a reconnect. The platform registers no callback in that case. The model therefore allows more behaviours than the code, and the invariants and counters proved over `Step` and `Run` hold over that larger set.
- There is a single scan listener. Each `scan` call in the code passes its own listener, and callbacks from an older task would reach the older listener.
- CentralLogic.CharacteristicChangedStep: the receive counter is an unbounded natural. The `AtomicInteger` wraps past 2^31 - 1, and `%02X` then prints eight digits for negative values.
- Charset decoding of the notification bytes and encoding of the written strings are not modelled: payloads are strings on both sides.
- The `Peripheral(null)` constructor path is not modelled. It leaves the device null, and the scanner never passes null.
- CentralLogic.DiscoveredStep: `onScanned` receives the live `peripheralList` itself, not a copy, and the list adapter keeps that reference. The listener therefore sees every later upsert, made on the scanner's callback thread, without another `onScanned` call. The model's `OnScanned` records the list's value at the moment of the call.
- Aliasing of `Peripheral` objects is not modelled. The peripheral captured by a link and the registry entry may be the same Java object, so `setConnected` changes both. The model keeps separate values. `isConnected` is never read by the controller.
- CentralLogic.ServicesDiscoveredStep: when the configured service is missing, the code dereferences null and throws inside the callback. The model ends the handler there, with no further output.
- CentralLogic.CharacteristicChangedStep: the same missing-service dereference is also modelled as ending the handler, after `onReceived` and the counter increment.
- The `status` argument of `onConnectionStateChange` is ignored by the code, so it is not carried.
- CentralLogic.ConnectStep: `deviceFound == false` models only the null return checked at Central.java:162. A throw from `getRemoteDevice` on a malformed address is not modelled. In that case `connect` throws to its caller, calls no listener and changes no state.

=== FILE: central.dfy ===
/**
 * The controller of the application as a pure event-driven state machine.
 *
 * Each public call of the controller and each platform callback is an
 * `Event`; `Step` returns the next state together with the `Output`s the
 * controller produces, in order: calls to its listeners and requests to the
 * platform (starting a scan, opening a link, writing a characteristic, ...).
 *
 * Every `connectGatt` call opens a new link, identified by its index in
 * `links`; the entry is the peripheral captured by that link's callback
 * object. Callbacks name the link they come from, so callbacks of a link
 * that has since been superseded are handled with the same shared fields
 * as the current one, as `Central` does.
 */
module CentralLogic {
  import opened Options
  import opened Uuids
  import opened Peripherals
  import opened Registry
  import opened EchoFrame
  import opened Gatt

  /** The identifiers and the greeting the controller reads from the application's resources. */
  datatype Config = Config(
    serviceId: Uuid,
    txCharacteristic: Uuid,
    rxCharacteristic: Uuid,
    subscriptDescriptor: Uuid,
    ready: string)

  /** What the system reports about its Bluetooth adapter. */
  datatype AdapterStatus = NoAdapter | AdapterDisabled | AdapterEnabled

  datatype Central = Central(
    adapterPresent: bool,        // `bluetoothAdapter != null`
    registry: seq<Peripheral>,   // `peripheralList`
    hasScanTask: bool,           // `scanTask != null`
    links: seq<Peripheral>,      // every link opened so far, with its peripheral
    gatt: Option<nat>,           // the link held in `gatt`
    manual: bool,                // `isManuallyDisconnect`
    counter: nat)                // `recieveCounter`

  const Initial: Central := Central(false, [], false, [], None, false, 0)

  datatype Event =
    | CheckAndStart(adapter: AdapterStatus)
    | Scan
    | Discovered(found: Option<Peripheral>)
    | ScanFailed(errorCode: int)
    | Connect(peripheral: Peripheral, deviceFound: bool, gattOpened: bool)
    | Disconnect
    | Stop
    | ConnectionStateChange(link: nat, newState: int, discoverAccepted: bool)
    | ServicesDiscovered(link: nat, status: int, services: seq<Service>,
                         notifyAccepted: bool, descriptorWriteAccepted: bool)
    | CharacteristicChanged(link: nat, characteristic: Uuid, value: string, services: seq<Service>)

  datatype Output =
    | Started(ok: bool)
    | OnScanned(list: seq<Peripheral>)
    | OnScanFailed(errorCode: int)
    | OnConnected(peripheral: Peripheral)
    | OnDisconnected(peripheral: Peripheral, isManually: bool)
    | OnReceived(peripheral: Peripheral, data: string)
    | OnConnectFail
    | StartScan
    | StopScanTask
    | OpenLink(link: nat, address: string)
    | DiscoverServices(link: nat)
    | Reconnect(link: nat)
    | RequestDisconnect(link: nat)
    | EnableNotification(link: nat, characteristic: Uuid)
    | WriteDescriptor(link: nat, descriptor: Uuid, bytes: seq<int>)
    | WriteCharacteristic(link: nat, characteristic: Uuid, value: string)
  {
    /** A call into one of the controller's listeners. */
    predicate IsCallback()
    {
      OnScanned? || OnScanFailed? || OnConnected? || OnDisconnected? || OnReceived? || OnConnectFail?
    }
  }

  datatype Reaction = Reaction(state: Central, out: seq<Output>)

  /** The invariant every reachable state keeps. */
  predicate Valid(s: Central)
  {
    && NoDuplicateAddresses(s.registry)
    && (s.gatt.Some? ==> s.gatt.value < |s.links|)
  }

  /** `checkAndStart`: keeps the adapter if there is one; succeeds only if it is enabled. */
  function CheckAndStartStep(s: Central, adapter: AdapterStatus): (r: Reaction)
    ensures r.out == [Started(true)] <==> adapter == AdapterEnabled
    ensures r.state.adapterPresent <==> adapter != NoAdapter
    ensures r.state.(adapterPresent := s.adapterPresent) == s
  {
    Reaction(s.(adapterPresent := adapter != NoAdapter), [Started(adapter == AdapterEnabled)])
  }

  /** `stopScan`: stops the current scan task, if there is one; the task stays recorded. */
  function StopScanStep(s: Central): (r: Reaction)
    ensures r.state == s
    ensures !s.hasScanTask ==> r.out == []
    ensures s.hasScanTask ==> r.out == [StopScanTask]
  {
    Reaction(s, if s.hasScanTask then [StopScanTask] else [])
  }

  /**
   * `scan`: stops any previous scan, then starts a new one; the registry is
   * kept. Without an adapter the scanner dereferences null before a task is
   * recorded, so only the stop of the previous task takes effect.
   */
  function ScanStep(s: Central): (r: Reaction)
    ensures !s.adapterPresent ==> r == StopScanStep(s)
    ensures r.state.registry == s.registry
    ensures s.adapterPresent ==> r.state.hasScanTask && r.state.(hasScanTask := s.hasScanTask) == s
    ensures s.adapterPresent ==> r.out == StopScanStep(s).out + [StartScan]
    ensures StartScan in r.out <==> s.adapterPresent
  {
    var stopped := StopScanStep(s);
    if !s.adapterPresent then stopped
    else Reaction(stopped.state.(hasScanTask := true), stopped.out + [StartScan])
  }

  /** The scanner's `onDiscovered`: a null peripheral is ignored; any other is upserted and the whole list reported. */
  function DiscoveredStep(s: Central, p: Option<Peripheral>): (r: Reaction)
    ensures p.None? ==> r == Reaction(s, [])
    ensures p.Some? ==> r.out == [OnScanned(r.state.registry)]
    ensures p.Some? ==> r.state == s.(registry := r.state.registry)
    ensures p.Some? ==> p.value in r.state.registry
    ensures p.Some? ==> Addresses(r.state.registry) == Addresses(s.registry) + {p.value.Address()}
    ensures |s.registry| <= |r.state.registry| <= |s.registry| + 1
    ensures NoDuplicateAddresses(s.registry) ==> NoDuplicateAddresses(r.state.registry)
  {
    match p
    case None => Reaction(s, [])
    case Some(q) =>
      var list := Upsert(s.registry, q);
      Reaction(s.(registry := list), [OnScanned(list)])
  }

  /** The scanner's `onFailed`: the error code is passed on; nothing else happens. */
  function ScanFailedStep(s: Central, errorCode: int): (r: Reaction)
    ensures r.state == s
    ensures r.out == [OnScanFailed(errorCode)]
  {
    Reaction(s, [OnScanFailed(errorCode)])
  }

  /** `canConnect`: the peripheral advertises the configured service. */
  function CanConnect(cfg: Config, p: Peripheral): (r: bool)
    ensures r <==> cfg.serviceId in p.serviceUuids
  {
    Contains(p.serviceUuids, cfg.serviceId)
  }

  /** `disconnect`: with a link held, marks the disconnect as manual and asks for teardown. */
  function DisconnectStep(s: Central): (r: Reaction)
    ensures s.gatt.None? ==> r == Reaction(s, [])
    ensures s.gatt.Some? ==> r.state.manual && r.state.(manual := s.manual) == s
    ensures s.gatt.Some? ==> r.out == [RequestDisconnect(s.gatt.value)]
  {
    match s.gatt
    case None => Reaction(s, [])
    case Some(link) => Reaction(s.(manual := true), [RequestDisconnect(link)])
  }

  /** `stop`: `stopScan` followed by `disconnect`. */
  function StopStep(s: Central): (r: Reaction)
    ensures r.state == DisconnectStep(s).state
    ensures r.out == StopScanStep(s).out + DisconnectStep(s).out
    ensures forall o :: o in r.out ==> !o.IsCallback()
  {
    var stopped := StopScanStep(s);
    var disconnected := DisconnectStep(stopped.state);
    Reaction(disconnected.state, stopped.out + disconnected.out)
  }

  /**
   * `connect`: fails fast, changing nothing, when there is no adapter or the
   * device cannot be resolved; otherwise disconnects any held link and opens
   * a new one. `connectGatt` may return null: the link's callback object
   * exists either way, but it becomes the held link only if the platform
   * returned a handle; otherwise no link is held afterwards. Such a link still
   * reacts to callbacks here, although the platform would deliver none.
   */
  function ConnectStep(s: Central, p: Peripheral, deviceFound: bool, gattOpened: bool): (r: Reaction)
    ensures !s.adapterPresent || !deviceFound ==> r == Reaction(s, [OnConnectFail])
    ensures s.adapterPresent && deviceFound ==>
              && r.state.gatt == (if gattOpened then Some(|s.links|) else None)
              && r.state.links == s.links + [p]
              && r.state.manual == (s.manual || s.gatt.Some?)
              && r.state.(links := s.links, gatt := s.gatt, manual := s.manual) == s
    ensures s.adapterPresent && deviceFound ==>
              r.out == (if s.gatt.Some? then [RequestDisconnect(s.gatt.value)] else [])
                       + [OpenLink(|s.links|, p.Address())]
  {
    if !s.adapterPresent then Reaction(s, [OnConnectFail])
    else if !deviceFound then Reaction(s, [OnConnectFail])
    else
      var released := DisconnectStep(s);
      var link := |released.state.links|;
      Reaction(released.state.(links := released.state.links + [p],
                               gatt := if gattOpened then Some(link) else None),
               released.out + [OpenLink(link, p.Address())])
  }

  /**
   * STATE_CONNECTED on a link: clears the manual flag and asks for service
   * discovery; if the request is accepted the listener hears `onConnected`
   * and the peripheral becomes connected, otherwise it hears `onConnectFail`.
   */
  function LinkConnectedStep(s: Central, link: nat, discoverAccepted: bool): (r: Reaction)
    requires link < |s.links|
    ensures !r.state.manual
    ensures r.state.(manual := s.manual, links := s.links) == s
    ensures |r.state.links| == |s.links|
    ensures forall i :: 0 <= i < |s.links| && i != link ==> r.state.links[i] == s.links[i]
    ensures |r.out| == 2 && r.out[0] == DiscoverServices(link)
    ensures discoverAccepted ==> r.out[1] == OnConnected(s.links[link]) && r.state.links[link] == SetConnected(s.links[link], true)
    ensures !discoverAccepted ==> r.out[1] == OnConnectFail && r.state.links == s.links
  {
    var p := s.links[link];
    var cleared := s.(manual := false);
    if discoverAccepted then
      Reaction(cleared.(links := s.links[link := SetConnected(p, true)]), [DiscoverServices(link), OnConnected(p)])
    else
      Reaction(cleared, [DiscoverServices(link), OnConnectFail])
  }

  /**
   * STATE_DISCONNECTED on a link: the peripheral becomes not connected, the
   * listener hears `onDisconnected` with the current manual flag, and the same
   * link is reconnected exactly when the flag is false. The flag is kept.
   */
  function LinkDisconnectedStep(s: Central, link: nat): (r: Reaction)
    requires link < |s.links|
    ensures r.state.(links := s.links) == s
    ensures |r.state.links| == |s.links|
    ensures forall i :: 0 <= i < |s.links| && i != link ==> r.state.links[i] == s.links[i]
    ensures r.state.links[link] == SetConnected(s.links[link], false)
    ensures |r.out| == (if s.manual then 1 else 2)
    ensures r.out[0] == OnDisconnected(r.state.links[link], s.manual)
    ensures Reconnect(link) in r.out <==> !s.manual
  {
    var p := SetConnected(s.links[link], false);
    Reaction(s.(links := s.links[link := p]),
             [OnDisconnected(p, s.manual)] + (if !s.manual then [Reconnect(link)] else []))
  }

  /** `onConnectionStateChange`: only CONNECTED and DISCONNECTED are acted upon. */
  function ConnectionStateChangeStep(s: Central, link: nat, newState: int, discoverAccepted: bool): (r: Reaction)
    ensures link >= |s.links| || (newState != STATE_CONNECTED && newState != STATE_DISCONNECTED) ==> r == Reaction(s, [])
    ensures link < |s.links| && newState == STATE_CONNECTED ==> r == LinkConnectedStep(s, link, discoverAccepted)
    ensures link < |s.links| && newState == STATE_DISCONNECTED ==> r == LinkDisconnectedStep(s, link)
  {
    if link >= |s.links| then Reaction(s, [])
    else if newState == STATE_CONNECTED then LinkConnectedStep(s, link, discoverAccepted)
    else if newState == STATE_DISCONNECTED then LinkDisconnectedStep(s, link)
    else Reaction(s, [])
  }

  datatype Subscription = Subscription(ok: bool, out: seq<Output>)

  /**
   * `subscriptCharacteristic`: enables notifications on the RX characteristic,
   * then writes the enable value to its configuration descriptor.
   */
  function Subscribe(cfg: Config, link: nat, rx: Characteristic,
                     notifyAccepted: bool, descriptorWriteAccepted: bool): (r: Subscription)
    ensures r.ok <==> notifyAccepted && HasDescriptor(rx, cfg.subscriptDescriptor) && descriptorWriteAccepted
    ensures 1 <= |r.out| <= 2 && r.out[0] == EnableNotification(link, rx.uuid)
    ensures |r.out| == 2 <==> notifyAccepted && HasDescriptor(rx, cfg.subscriptDescriptor)
    ensures |r.out| == 2 ==> r.out[1] == WriteDescriptor(link, cfg.subscriptDescriptor, ENABLE_NOTIFICATION_VALUE)
  {
    var enable := [EnableNotification(link, rx.uuid)];
    if !notifyAccepted then Subscription(false, enable)
    else
      match GetDescriptor(rx, cfg.subscriptDescriptor)
      case None => Subscription(false, enable)
      case Some(d) =>
        Subscription(descriptorWriteAccepted, enable + [WriteDescriptor(link, d.uuid, ENABLE_NOTIFICATION_VALUE)])
  }

  /** Every check that must pass, in order, before the greeting is written. */
  predicate ReadyConditions(cfg: Config, status: int, services: seq<Service>,
                            notifyAccepted: bool, descriptorWriteAccepted: bool)
  {
    && status == GATT_SUCCESS
    && GetService(services, cfg.serviceId).Some?
    && HasCharacteristic(GetService(services, cfg.serviceId).value, cfg.txCharacteristic)
    && HasCharacteristic(GetService(services, cfg.serviceId).value, cfg.rxCharacteristic)
    && notifyAccepted
    && HasDescriptor(GetCharacteristic(GetService(services, cfg.serviceId).value, cfg.rxCharacteristic).value,
                     cfg.subscriptDescriptor)
    && descriptorWriteAccepted
  }

  /**
   * `onServicesDiscovered`: on success, finds the service and the TX and RX
   * characteristics, subscribes to RX and writes the greeting to TX. Any
   * failing check ends the handler silently; the listener is never called.
   * A missing service, where `Central` dereferences null, also ends it.
   */
  function ServicesDiscoveredStep(cfg: Config, link: nat, status: int, services: seq<Service>,
                                  notifyAccepted: bool, descriptorWriteAccepted: bool): (out: seq<Output>)
    ensures forall o :: o in out ==> !o.IsCallback()
    ensures status != GATT_SUCCESS ==> out == []
    ensures EnableNotification(link, cfg.rxCharacteristic) !in out ==> out == []
    ensures WriteCharacteristic(link, cfg.txCharacteristic, cfg.ready) in out <==>
              ReadyConditions(cfg, status, services, notifyAccepted, descriptorWriteAccepted)
    ensures ReadyConditions(cfg, status, services, notifyAccepted, descriptorWriteAccepted) ==>
              out == [EnableNotification(link, cfg.rxCharacteristic),
                      WriteDescriptor(link, cfg.subscriptDescriptor, ENABLE_NOTIFICATION_VALUE),
                      WriteCharacteristic(link, cfg.txCharacteristic, cfg.ready)]
    ensures EnableNotification(link, cfg.rxCharacteristic) in out <==>
              && status == GATT_SUCCESS
              && GetService(services, cfg.serviceId).Some?
              && HasCharacteristic(GetService(services, cfg.serviceId).value, cfg.txCharacteristic)
              && HasCharacteristic(GetService(services, cfg.serviceId).value, cfg.rxCharacteristic)
  {
    if status != GATT_SUCCESS then []
    else
      match GetService(services, cfg.serviceId)
      case None => []
      case Some(service) =>
        CharacteristicLookup(service, cfg.txCharacteristic);
        CharacteristicLookup(service, cfg.rxCharacteristic);
        match GetCharacteristic(service, cfg.txCharacteristic)
        case None => []
        case Some(tx) =>
          match GetCharacteristic(service, cfg.rxCharacteristic)
          case None => []
          case Some(rx) =>
            var subscription := Subscribe(cfg, link, rx, notifyAccepted, descriptorWriteAccepted);
            if !subscription.ok then subscription.out
            else subscription.out + [WriteCharacteristic(link, tx.uuid, cfg.ready)]
  }

  /** Whether the echo of a notification can reach the TX characteristic. */
  predicate TxReachable(cfg: Config, services: seq<Service>)
  {
    && GetService(services, cfg.serviceId).Some?
    && HasCharacteristic(GetService(services, cfg.serviceId).value, cfg.txCharacteristic)
  }

  /**
   * `onCharacteristicChanged`: a notification from anything but the RX
   * characteristic is ignored. Otherwise the payload goes to the listener,
   * the receive counter is incremented, and the echo frame of the new counter
   * value is written to TX when TX can be found.
   */
  function CharacteristicChangedStep(cfg: Config, s: Central, link: nat, characteristic: Uuid,
                                     value: string, services: seq<Service>): (r: Reaction)
    ensures link >= |s.links| || characteristic != cfg.rxCharacteristic ==> r == Reaction(s, [])
    ensures link < |s.links| && characteristic == cfg.rxCharacteristic ==>
              && r.state.counter == s.counter + 1
              && r.state.(counter := s.counter) == s
              && 1 <= |r.out| <= 2
              && r.out[0] == OnReceived(s.links[link], value)
              && (|r.out| == 2 <==> TxReachable(cfg, services))
              && (|r.out| == 2 ==> r.out[1] == WriteCharacteristic(link, cfg.txCharacteristic, Echo(s.counter + 1, value)))
  {
    if link >= |s.links| || characteristic != cfg.rxCharacteristic then Reaction(s, [])
    else
      var received := [OnReceived(s.links[link], value)];
      var n := s.counter + 1;
      var next := s.(counter := n);
      match GetService(services, cfg.serviceId)
      case None => Reaction(next, received)
      case Some(service) =>
        CharacteristicLookup(service, cfg.txCharacteristic);
        match GetCharacteristic(service, cfg.txCharacteristic)
        case None => Reaction(next, received)
        case Some(tx) => Reaction(next, received + [WriteCharacteristic(link, tx.uuid, Echo(n, value))])
  }

  /** One event handled by the controller; a callback naming a link never opened is ignored. */
  function Step(cfg: Config, s: Central, e: Event): (r: Reaction)
    ensures Valid(s) ==> Valid(r.state)
    ensures r.state.counter >= s.counter
    ensures |s.links| <= |r.state.links| <= |s.links| + 1
    ensures forall i :: 0 <= i < |s.links| ==> r.state.links[i].Address() == s.links[i].Address()
  {
    match e
    case CheckAndStart(adapter) => CheckAndStartStep(s, adapter)
    case Scan => ScanStep(s)
    case Discovered(p) => DiscoveredStep(s, p)
    case ScanFailed(code) => ScanFailedStep(s, code)
    case Connect(p, deviceFound, gattOpened) => ConnectStep(s, p, deviceFound, gattOpened)
    case Disconnect => DisconnectStep(s)
    case Stop => StopStep(s)
    case ConnectionStateChange(link, newState, discoverAccepted) =>
      ConnectionStateChangeStep(s, link, newState, discoverAccepted)
    case ServicesDiscovered(link, status, services, notifyAccepted, descriptorWriteAccepted) =>
      if link >= |s.links| then Reaction(s, [])
      else Reaction(s, ServicesDiscoveredStep(cfg, link, status, services, notifyAccepted, descriptorWriteAccepted))
    case CharacteristicChanged(link, characteristic, value, services) =>
      CharacteristicChangedStep(cfg, s, link, characteristic, value, services)
  }

  /** A sequence of events handled one after another; the outputs are concatenated. */
  function Run(cfg: Config, s: Central, es: seq<Event>): (r: Reaction)
    decreases es
    ensures Valid(s) ==> Valid(r.state)
    ensures r.state.counter >= s.counter
  {
    if es == [] then Reaction(s, [])
    else
      var first := Step(cfg, s, es[0]);
      var rest := Run(cfg, first.state, es[1..]);
      Reaction(rest.state, first.out + rest.out)
  }
}

=== FILE: central_properties.dfy ===
/**
 * Properties of whole runs of the controller: what the receive counter
 * counts, what the registry holds after any sequence of events, and how the
 * manual-disconnect flag decides reconnection across a connection's life.
 */
module CentralProperties {
  import opened Options
  import opened Uuids
  import opened Peripherals
  import opened Registry
  import opened Gatt
  import opened CentralLogic

  /** How many payloads were delivered to the listener's `onReceived`. */
  function CountReceived(out: seq<Output>): nat
  {
    if out == [] then 0
    else (if out[0].OnReceived? then 1 else 0) + CountReceived(out[1..])
  }

  lemma {:induction false} CountReceivedAppend(a: seq<Output>, b: seq<Output>)
    ensures CountReceived(a + b) == CountReceived(a) + CountReceived(b)
  {
    if a != [] {
      assert (a + b)[0] == a[0];
      assert (a + b)[1..] == a[1..] + b;
      CountReceivedAppend(a[1..], b);
    } else {
      assert a + b == b;
    }
  }

  lemma {:induction false} NoneReceived(out: seq<Output>)
    requires forall i :: 0 <= i < |out| ==> !out[i].OnReceived?
    ensures CountReceived(out) == 0
  {
    if out != [] {
      NoneReceived(out[1..]);
    }
  }

  lemma NotificationCounter(cfg: Config, s: Central, link: nat, characteristic: Uuid, value: string, services: seq<Service>)
    ensures CharacteristicChangedStep(cfg, s, link, characteristic, value, services).state.counter
            == s.counter + CountReceived(CharacteristicChangedStep(cfg, s, link, characteristic, value, services).out)
  {
    var r := CharacteristicChangedStep(cfg, s, link, characteristic, value, services);
    if link < |s.links| && characteristic == cfg.rxCharacteristic {
      NoneReceived(r.out[1..]);
    } else {
      NoneReceived(r.out);
    }
  }

  lemma QuietOutputs(out: seq<Output>)
    requires forall o :: o in out ==> !o.IsCallback()
    ensures CountReceived(out) == 0
  {
    assert forall i :: 0 <= i < |out| ==> out[i] in out;
    NoneReceived(out);
  }

  /** Within one step the counter moves exactly when a payload is delivered. */
  lemma StepCounter(cfg: Config, s: Central, e: Event)
    ensures Step(cfg, s, e).state.counter == s.counter + CountReceived(Step(cfg, s, e).out)
  {
    match e
    case CharacteristicChanged(link, characteristic, value, services) =>
      NotificationCounter(cfg, s, link, characteristic, value, services);
    case ServicesDiscovered(link, status, services, notifyAccepted, descriptorWriteAccepted) =>
      QuietOutputs(ServicesDiscoveredStep(cfg, link, status, services, notifyAccepted, descriptorWriteAccepted));
    case Stop =>
      QuietOutputs(StopStep(s).out);
    case _ =>
      NoneReceived(Step(cfg, s, e).out);
  }

  /**
   * The receive counter counts every payload delivered to the listener, over
   * any run of events: it starts where it was, is never reset by connecting
   * or disconnecting, and grows by one per delivered notification.
   */
  lemma {:induction false} RunCounter(cfg: Config, s: Central, es: seq<Event>)
    decreases es
    ensures Run(cfg, s, es).state.counter == s.counter + CountReceived(Run(cfg, s, es).out)
  {
    if es != [] {
      var first := Step(cfg, s, es[0]);
      StepCounter(cfg, s, es[0]);
      RunCounter(cfg, first.state, es[1..]);
      CountReceivedAppend(first.out, Run(cfg, first.state, es[1..]).out);
    }
  }

  /** The peripherals reported by the discovery events of a run, nulls left out. */
  function DiscoveredIn(es: seq<Event>): seq<Peripheral>
  {
    if es == [] then []
    else if es[0].Discovered? && es[0].found.Some? then [es[0].found.value] + DiscoveredIn(es[1..])
    else DiscoveredIn(es[1..])
  }

  lemma RunUnfold(cfg: Config, s: Central, es: seq<Event>)
    requires es != []
    ensures Run(cfg, s, es) == Reaction(Run(cfg, Step(cfg, s, es[0]).state, es[1..]).state,
                                        Step(cfg, s, es[0]).out + Run(cfg, Step(cfg, s, es[0]).state, es[1..]).out)
  {
  }

  /** Only a non-null discovery touches the registry. */
  lemma StepRegistry(cfg: Config, s: Central, e: Event)
    ensures Step(cfg, s, e).state.registry ==
              if e.Discovered? && e.found.Some? then Upsert(s.registry, e.found.value) else s.registry
  {
    match e
    case Discovered(p) =>
    case ConnectionStateChange(link, newState, discoverAccepted) =>
      if link < |s.links| && newState == STATE_CONNECTED {
        assert Step(cfg, s, e) == LinkConnectedStep(s, link, discoverAccepted);
      } else if link < |s.links| && newState == STATE_DISCONNECTED {
        assert Step(cfg, s, e) == LinkDisconnectedStep(s, link);
      }
    case CharacteristicChanged(link, characteristic, value, services) =>
      assert Step(cfg, s, e) == CharacteristicChangedStep(cfg, s, link, characteristic, value, services);
    case _ =>
  }

  /** The registry after any run is its starting list with every discovery of the run upserted, in order. */
  lemma {:induction false} RunRegistry(cfg: Config, s: Central, es: seq<Event>)
    decreases es
    ensures Run(cfg, s, es).state.registry == UpsertAll(s.registry, DiscoveredIn(es))
  {
    if es != [] {
      var first := Step(cfg, s, es[0]);
      RunUnfold(cfg, s, es);
      RunRegistry(cfg, first.state, es[1..]);
      StepRegistry(cfg, s, es[0]);
    }
  }

  /**
   * From the initial state, whatever the events, the registry holds exactly
   * one entry per distinct address discovered, each the latest peripheral seen
   * there, so the reported list is never longer than the distinct addresses seen.
   */
  lemma RegistryFromStart(cfg: Config, es: seq<Event>)
    ensures NoDuplicateAddresses(Run(cfg, Initial, es).state.registry)
    ensures Addresses(Run(cfg, Initial, es).state.registry) == Addresses(DiscoveredIn(es))
    ensures |Run(cfg, Initial, es).state.registry| == |Addresses(DiscoveredIn(es))|
    ensures forall q :: q in Run(cfg, Initial, es).state.registry ==> Latest(DiscoveredIn(es), q.Address()) == Some(q)
  {
    RunRegistry(cfg, Initial, es);
    CollectSpec(DiscoveredIn(es));
  }

  /** Two discoveries at the same new address leave one entry, the later one, and report the list twice. */
  lemma RediscoveryReplaces(s: Central, p1: Peripheral, p2: Peripheral)
    requires p1.Address() == p2.Address()
    requires p1.Address() !in Addresses(s.registry)
    ensures var r1 := DiscoveredStep(s, Some(p1));
            var r2 := DiscoveredStep(r1.state, Some(p2));
            && r2.state.registry == s.registry + [p2]
            && r1.out + r2.out == [OnScanned(s.registry + [p1]), OnScanned(s.registry + [p2])]
  {
    RediscoveryReplacesLast(s.registry, p1, p2);
  }

  /** A successful connect followed by STATE_CONNECTED holds the new link, connected, with the flag cleared. */
  lemma ConnectThenConnected(s: Central, p: Peripheral)
    requires s.adapterPresent
    ensures var link := |s.links|;
            var connect := ConnectStep(s, p, true, true);
            var connected := LinkConnectedStep(connect.state, link, true);
            && OnConnectFail !in connect.out + connected.out
            && connected.state.gatt == Some(link)
            && !connected.state.manual
            && connected.state.links[link] == SetConnected(p, true)
  {
  }

  /**
   * After a connection that reaches the greeting, a loss the user did not ask
   * for is reported with `isManually == false` and followed by exactly one
   * reconnect of the same link, with no connect failure reported on the way.
   */
  lemma InvoluntaryLossReconnects(cfg: Config, s: Central, p: Peripheral, services: seq<Service>)
    requires s.adapterPresent
    requires ReadyConditions(cfg, GATT_SUCCESS, services, true, true)
    ensures var link := |s.links|;
            var connect := ConnectStep(s, p, true, true);
            var connected := LinkConnectedStep(connect.state, link, true);
            var setup := ServicesDiscoveredStep(cfg, link, GATT_SUCCESS, services, true, true);
            var lost := LinkDisconnectedStep(connected.state, link);
            && OnConnectFail !in connect.out + connected.out + setup
            && WriteCharacteristic(link, cfg.txCharacteristic, cfg.ready) in setup
            && lost.out == [OnDisconnected(SetConnected(p, false), false), Reconnect(link)]
            && lost.state.gatt == Some(link)
  {
    var link := |s.links|;
    ConnectThenConnected(s, p);
    var setup := ServicesDiscoveredStep(cfg, link, GATT_SUCCESS, services, true, true);
    assert OnConnectFail !in setup by {
      assert !OnConnectFail.IsCallback() ==> OnConnectFail !in setup;
    }
  }

  /** A disconnect the user asked for is reported as manual and is never followed by a reconnect. */
  lemma ManualDisconnectStaysDown(s: Central)
    requires Valid(s) && s.gatt.Some?
    ensures var link := s.gatt.value;
            var down := DisconnectStep(s);
            var lost := LinkDisconnectedStep(down.state, link);
            && down.out + lost.out == [RequestDisconnect(link), OnDisconnected(SetConnected(s.links[link], false), true)]
            && lost.state.manual
  {
  }

  /**
   * The manual flag is one field shared by every link. When a connect
   * supersedes a link and the new link connects before the first one reports
   * its loss, the flag has already been cleared: the first link's loss is
   * reported as not manual and that link is reconnected while the new link
   * is the one held.
   */
  lemma SupersededLinkReconnects(s: Central, a: Peripheral, b: Peripheral)
    requires s.adapterPresent && s.gatt.None?
    ensures var first := |s.links|;
            var r0 := ConnectStep(s, a, true, true);
            var r1 := LinkConnectedStep(r0.state, first, true);
            var r2 := ConnectStep(r1.state, b, true, true);
            var r3 := LinkConnectedStep(r2.state, first + 1, true);
            var r4 := LinkDisconnectedStep(r3.state, first);
            && r2.out == [RequestDisconnect(first), OpenLink(first + 1, b.Address())]
            && r2.state.manual && !r3.state.manual
            && r4.out == [OnDisconnected(SetConnected(a, false), false), Reconnect(first)]
            && r4.state.gatt == Some(first + 1)
  {
    var first := |s.links|;
    var r0 := ConnectStep(s, a, true, true);
    var r1 := LinkConnectedStep(r0.state, first, true);
    var r2 := ConnectStep(r1.state, b, true, true);
    var r3 := LinkConnectedStep(r2.state, first + 1, true);
    assert r3.state.links[first] == SetConnected(a, true);
  }

  /** A scanned peripheral can be connected exactly when its advertisement listed the configured service. */
  lemma CanConnectScanned(cfg: Config, result: ScanResult)
    ensures CanConnect(cfg, NewPeripheral(result)) <==>
              && result.scanRecord.Some?
              && result.scanRecord.value.serviceUuids.Some?
              && exists i :: 0 <= i < |result.scanRecord.value.serviceUuids.value| &&
                             result.scanRecord.value.serviceUuids.value[i].uuid == cfg.serviceId
  {
    assert CanConnect(cfg, NewPeripheral(result)) <==> Contains(NewPeripheral(result).serviceUuids, cfg.serviceId);
  }

  /** The held link is never released by `disconnect`, so a second call asks the platform again and changes nothing more. */
  lemma DisconnectTwice(s: Central)
    ensures DisconnectStep(DisconnectStep(s).state).state == DisconnectStep(s).state
    ensures DisconnectStep(DisconnectStep(s).state).out == DisconnectStep(s).out
  {
  }

  /** Neither the scan task nor the held link is released by `stop`, so a second call repeats the same requests. */
  lemma StopTwice(s: Central)
    ensures StopStep(StopStep(s).state) == StopStep(s)
  {
  }

  /**
   * Connecting while a link is held sets the shared flag through `disconnect`.
   * If the new link's attempt is lost before it ever reports CONNECTED, the
   * loss is reported as manual and nothing reconnects.
   */
  lemma LostBeforeConnectedStaysDown(s: Central, b: Peripheral)
    requires Valid(s) && s.adapterPresent && s.gatt.Some?
    ensures var lost := LinkDisconnectedStep(ConnectStep(s, b, true, true).state, |s.links|);
            && lost.out == [OnDisconnected(SetConnected(b, false), true)]
            && lost.state.manual
  {
  }

  /**
   * When `connectGatt` returns null no link is held, so a following
   * `disconnect` neither sets the flag nor asks the platform for anything.
   */
  lemma NullHandleNotDisconnected(s: Central, p: Peripheral)
    requires s.adapterPresent
    ensures var connect := ConnectStep(s, p, true, false);
            && connect.state.gatt.None?
            && DisconnectStep(connect.state) == Reaction(connect.state, [])
  {
  }
}

=== FILE: echo_frame.dfy ===
/**
 * The echo frame written back for every received notification:
 * the receive counter formatted as by `String.format("%02X", n)` (upper-case
 * hexadecimal, zero-padded to at least two digits), then the payload, then a
 * NUL character.
 */
module EchoFrame {
  import opened Options

  const HexAlphabet: string := "0123456789ABCDEF"

  predicate IsUpperHexDigit(c: char)
  {
    '0' <= c <= '9' || 'A' <= c <= 'F'
  }

  function Digit(d: nat): (c: char)
    requires d < 16
    ensures IsUpperHexDigit(c)
    ensures DigitValue(c) == d
  {
    HexAlphabet[d]
  }

  /** The value of one upper-case hexadecimal digit. */
  function DigitValue(c: char): (d: nat)
    requires IsUpperHexDigit(c)
    ensures d < 16
  {
    if c <= '9' then c as int - '0' as int else c as int - 'A' as int + 10
  }

  lemma DigitOfValue(c: char)
    requires IsUpperHexDigit(c)
    ensures Digit(DigitValue(c)) == c
  {
  }

  predicate AllUpperHex(s: string)
  {
    forall i :: 0 <= i < |s| ==> IsUpperHexDigit(s[i])
  }

  /** The digits of `n` in base 16, most significant first, without leading zeros. */
  function HexDigits(n: nat): (s: string)
    ensures |s| >= 1 && AllUpperHex(s)
    ensures n > 0 ==> s[0] != '0'
    ensures n < 16 <==> |s| == 1
    ensures n < 256 <==> |s| <= 2
  {
    if n < 16 then [Digit(n)] else HexDigits(n / 16) + [Digit(n % 16)]
  }

  /** The value of a string of upper-case hexadecimal digits, most significant first. */
  function ParseHex(s: string): nat
    requires AllUpperHex(s)
  {
    if s == [] then 0 else ParseHex(s[..|s| - 1]) * 16 + DigitValue(s[|s| - 1])
  }

  lemma ParseHexTwoDigits(s: string)
    requires |s| == 2 && AllUpperHex(s)
    ensures ParseHex(s) == DigitValue(s[0]) * 16 + DigitValue(s[1])
    ensures ParseHex(s) < 256
  {
    assert ParseHex(s[..1]) == DigitValue(s[0]) by {
      assert s[..1][..0] == [];
    }
  }

  /** `String.format("%02X", n)` for a non-negative `n`. */
  function Hex02(n: nat): (s: string)
    ensures |s| >= 2 && AllUpperHex(s)
    ensures n < 256 <==> |s| == 2
    ensures |s| > 2 ==> s[0] != '0'
  {
    if n < 16 then ['0', Digit(n)] else HexDigits(n)
  }

  lemma {:induction false} HexDigitsRoundTrip(n: nat)
    ensures ParseHex(HexDigits(n)) == n
  {
    if n >= 16 {
      HexDigitsRoundTrip(n / 16);
      var s := HexDigits(n);
      assert s[..|s| - 1] == HexDigits(n / 16);
    }
  }

  /** Reading the formatted counter back gives the counter. */
  lemma Hex02RoundTrip(n: nat)
    ensures ParseHex(Hex02(n)) == n
  {
    if n < 16 {
      ParseHexTwoDigits(Hex02(n));
    } else {
      HexDigitsRoundTrip(n);
    }
  }

  lemma DivModSixteen(hi: nat, lo: nat)
    requires lo < 16
    ensures (hi * 16 + lo) / 16 == hi && (hi * 16 + lo) % 16 == lo
  {
  }

  /** The two-digit rendering is the only one: any two upper-case digits are `Hex02` of their value. */
  lemma Hex02OfTwoDigits(s: string)
    requires |s| == 2 && AllUpperHex(s)
    ensures ParseHex(s) < 256
    ensures Hex02(ParseHex(s)) == s
  {
    var hi, lo := DigitValue(s[0]), DigitValue(s[1]);
    ParseHexTwoDigits(s);
    DigitOfValue(s[0]);
    DigitOfValue(s[1]);
    var n := hi * 16 + lo;
    if hi == 0 {
      assert s[0] == '0';
      assert Hex02(n) == ['0', Digit(lo)];
    } else {
      DivModSixteen(hi, lo);
      assert HexDigits(n) == HexDigits(hi) + [Digit(lo)];
      assert Hex02(n) == [Digit(hi)] + [Digit(lo)];
    }
    assert s == [s[0], s[1]];
  }

  /** The frame `hex02(counter) + payload + "\0"`. */
  function Echo(counter: nat, payload: string): (frame: string)
    ensures |frame| == |Hex02(counter)| + |payload| + 1
    ensures frame[|frame| - 1] == '\0'
    ensures frame[..|Hex02(counter)|] == Hex02(counter)
    ensures frame[|frame| - 1 - |payload|..|frame| - 1] == payload
  {
    Hex02(counter) + payload + "\0"
  }

  datatype EchoFields = EchoFields(counter: nat, payload: string)

  /** Splits a frame whose counter fits in two digits back into counter and payload. */
  function ParseEcho(frame: string): (r: Option<EchoFields>)
    ensures r.Some? ==> r.value.counter < 256 && |frame| == |r.value.payload| + 3
  {
    if |frame| >= 3 && AllUpperHex(frame[..2]) && frame[|frame| - 1] == '\0' then
      ParseHexTwoDigits(frame[..2]);
      Some(EchoFields(ParseHex(frame[..2]), frame[2..|frame| - 1]))
    else None
  }

  /** For a counter of one or two hex digits, the echo frame parses back to counter and payload. */
  lemma EchoRoundTrip(counter: nat, payload: string)
    requires counter < 256
    ensures ParseEcho(Echo(counter, payload)) == Some(EchoFields(counter, payload))
  {
    var frame := Echo(counter, payload);
    assert frame[..2] == Hex02(counter);
    assert frame[2..|frame| - 1] == payload;
    Hex02RoundTrip(counter);
  }

  /** Every frame that parses is the echo of what it parses to. */
  lemma ParseEchoSound(frame: string)
    requires ParseEcho(frame).Some?
    ensures Echo(ParseEcho(frame).value.counter, ParseEcho(frame).value.payload) == frame
  {
    Hex02OfTwoDigits(frame[..2]);
    assert frame == frame[..2] + frame[2..|frame| - 1] + "\0";
  }

  /** The first notification echoes `"hi"` as `"01hi\0"`; counter 255 is rendered `"FF"`. */
  lemma EchoExamples()
    ensures Echo(1, "hi") == "01hi\0"
    ensures Hex02(255) == "FF"
    ensures Hex02(256) == "100"
  {
  }
}

=== FILE: gatt.dfy ===
/**
 * The platform's GATT constants and the discovered attribute database of one
 * link, with the first-match lookups `getService`, `getCharacteristic` and
 * `getDescriptor`.
 */
module Gatt {
  import opened Options
  import opened Uuids

  /** `BluetoothGatt.GATT_SUCCESS`. */
  const GATT_SUCCESS: int := 0
  /** `BluetoothProfile.STATE_DISCONNECTED` and `STATE_CONNECTED`. */
  const STATE_DISCONNECTED: int := 0
  const STATE_CONNECTED: int := 2
  /** `BluetoothGattDescriptor.ENABLE_NOTIFICATION_VALUE`, the bytes 0x01 0x00. */
  const ENABLE_NOTIFICATION_VALUE: seq<int> := [0x01, 0x00]

  datatype Descriptor = Descriptor(uuid: Uuid)
  datatype Characteristic = Characteristic(uuid: Uuid, descriptors: seq<Descriptor>)
  datatype Service = Service(uuid: Uuid, characteristics: seq<Characteristic>)

  /** The index of the first element whose UUID is `u`, or none. */
  function FirstIndexWithUuid<T>(s: seq<T>, uuidOf: T -> Uuid, u: Uuid): (r: Option<nat>)
    ensures r.None? <==> forall i :: 0 <= i < |s| ==> uuidOf(s[i]) != u
    ensures r.Some? ==> r.value < |s| && uuidOf(s[r.value]) == u
    ensures r.Some? ==> forall j :: 0 <= j < r.value ==> uuidOf(s[j]) != u
  {
    if s == [] then None
    else if uuidOf(s[0]) == u then Some(0)
    else
      match FirstIndexWithUuid(s[1..], uuidOf, u)
      case None => None
      case Some(i) => Some(i + 1)
  }

  /** `BluetoothGatt.getService`: the first discovered service with the UUID. */
  function GetService(services: seq<Service>, u: Uuid): Option<Service>
  {
    match FirstIndexWithUuid(services, (x: Service) => x.uuid, u)
    case None => None
    case Some(i) => Some(services[i])
  }

  /** `BluetoothGattService.getCharacteristic`: the first characteristic with the UUID. */
  function GetCharacteristic(service: Service, u: Uuid): Option<Characteristic>
  {
    match FirstIndexWithUuid(service.characteristics, (x: Characteristic) => x.uuid, u)
    case None => None
    case Some(i) => Some(service.characteristics[i])
  }

  /** `BluetoothGattCharacteristic.getDescriptor`: the first descriptor with the UUID. */
  function GetDescriptor(characteristic: Characteristic, u: Uuid): Option<Descriptor>
  {
    match FirstIndexWithUuid(characteristic.descriptors, (x: Descriptor) => x.uuid, u)
    case None => None
    case Some(i) => Some(characteristic.descriptors[i])
  }

  predicate HasCharacteristic(service: Service, u: Uuid)
  {
    exists i :: 0 <= i < |service.characteristics| && service.characteristics[i].uuid == u
  }

  predicate HasDescriptor(characteristic: Characteristic, u: Uuid)
  {
    exists i :: 0 <= i < |characteristic.descriptors| && characteristic.descriptors[i].uuid == u
  }

  /** `getCharacteristic` succeeds exactly when the characteristic is present, and finds one with the UUID asked for. */
  lemma CharacteristicLookup(service: Service, u: Uuid)
    ensures GetCharacteristic(service, u).Some? <==> HasCharacteristic(service, u)
    ensures GetCharacteristic(service, u).Some? ==> GetCharacteristic(service, u).value.uuid == u
  {
  }

  /** `getDescriptor` succeeds exactly when the descriptor is present, and finds one with the UUID asked for. */
  lemma DescriptorLookup(characteristic: Characteristic, u: Uuid)
    ensures GetDescriptor(characteristic, u).Some? <==> HasDescriptor(characteristic, u)
    ensures GetDescriptor(characteristic, u).Some? ==> GetDescriptor(characteristic, u).value.uuid == u
  {
  }
}

=== FILE: options.dfy ===
/** The optional value that stands in for a Java reference that may be null. */
module Options {

  datatype Option<+T> = None | Some(value: T)
}

=== FILE: peripheral.dfy ===
/**
 * One discovered BLE peripheral, built from a scan result.
 * Identity is the hardware address of the device: name, signal strength,
 * advertised services and the connected flag do not take part in equality.
 */
module Peripherals {
  import opened Options
  import opened Uuids

  /** The remote device behind a scan result: its address and optional name. */
  datatype Device = Device(address: string, name: Option<string>)

  /** The advertisement payload; its service list may be absent. */
  datatype ScanRecord = ScanRecord(serviceUuids: Option<seq<ParcelUuid>>)

  /** One result delivered by the platform scanner; the record may be absent. */
  datatype ScanResult = ScanResult(device: Device, rssi: int, scanRecord: Option<ScanRecord>)

  datatype Peripheral = Peripheral(device: Device, rssi: int, serviceUuids: seq<Uuid>, connected: bool)
  {
    function Address(): string { device.address }

    function Name(): Option<string> { device.name }
  }

  /** Unwraps each advertised `ParcelUuid`, one after another. */
  function UnwrapAll(ps: seq<ParcelUuid>): (r: seq<Uuid>)
    ensures |r| == |ps|
    ensures forall i :: 0 <= i < |ps| ==> r[i] == ps[i].uuid
  {
    if ps == [] then [] else [ps[0].uuid] + UnwrapAll(ps[1..])
  }

  /** The service UUIDs a peripheral keeps from its scan record. */
  function ServiceUuidsOf(record: Option<ScanRecord>): (r: seq<Uuid>)
    ensures record.None? ==> r == []
    ensures record.Some? && record.value.serviceUuids.None? ==> r == []
    ensures record.Some? && record.value.serviceUuids.Some? ==>
              |r| == |record.value.serviceUuids.value| &&
              forall i :: 0 <= i < |r| ==> r[i] == record.value.serviceUuids.value[i].uuid
  {
    match record
    case None => []
    case Some(rec) =>
      match rec.serviceUuids
      case None => []
      case Some(ps) => UnwrapAll(ps)
  }

  /** The constructor `Peripheral(ScanResult)`: a fresh, not-connected peripheral. */
  function NewPeripheral(result: ScanResult): (p: Peripheral)
    ensures p.Address() == result.device.address && p.Name() == result.device.name
    ensures p.rssi == result.rssi
    ensures !p.connected
    ensures forall u :: Contains(p.serviceUuids, u) <==>
              result.scanRecord.Some? && result.scanRecord.value.serviceUuids.Some? &&
              exists i :: 0 <= i < |result.scanRecord.value.serviceUuids.value| &&
                          result.scanRecord.value.serviceUuids.value[i].uuid == u
  {
    Peripheral(result.device, result.rssi, ServiceUuidsOf(result.scanRecord), false)
  }

  /** The argument of `equals(Object)`: null, a peripheral, or an object of another class. */
  datatype JavaObject = Null | PeripheralObject(peripheral: Peripheral) | OtherObject

  /** `Peripheral.equals`: the same object, or another peripheral at the same address. */
  function Equals(self: Peripheral, o: JavaObject): (r: bool)
    ensures o == PeripheralObject(self) ==> r
    ensures o.Null? ==> !r
    ensures o.OtherObject? ==> !r
    ensures o.PeripheralObject? ==> (r <==> o.peripheral.device.address == self.device.address)
  {
    if o == PeripheralObject(self) then true
    else
      match o
      case Null => false
      case OtherObject => false
      case PeripheralObject(q) => self.Address() == q.Address()
  }

  /** `setConnected(b)`: only the connected flag changes. */
  function SetConnected(p: Peripheral, b: bool): (q: Peripheral)
    ensures q.connected == b
    ensures q.device == p.device && q.rssi == p.rssi && q.serviceUuids == p.serviceUuids
  {
    p.(connected := b)
  }

  /** Equality between peripherals is an equivalence relation. */
  lemma EqualsIsEquivalence(p: Peripheral, q: Peripheral, t: Peripheral)
    ensures Equals(p, PeripheralObject(p))
    ensures Equals(p, PeripheralObject(q)) == Equals(q, PeripheralObject(p))
    ensures Equals(p, PeripheralObject(q)) && Equals(q, PeripheralObject(t)) ==> Equals(p, PeripheralObject(t))
  {
  }

  /** Equality ignores everything but the address, so `setConnected` keeps identity. */
  lemma EqualsIgnoresState(p: Peripheral, name: Option<string>, rssi: int, uuids: seq<Uuid>, b: bool)
    ensures Equals(p, PeripheralObject(Peripheral(Device(p.Address(), name), rssi, uuids, b)))
    ensures Equals(SetConnected(p, b), PeripheralObject(p))
  {
  }
}

=== FILE: registry.dfy ===
/**
 * The discovery registry: the ordered list of peripherals found by a scan,
 * with at most one entry per address. A rediscovered address has its entry
 * replaced in place; a new address is appended.
 */
module Registry {
  import opened Options
  import opened Peripherals

  /** The addresses held by a list of peripherals. */
  function Addresses(list: seq<Peripheral>): set<string>
  {
    set p | p in list :: p.Address()
  }

  predicate NoDuplicateAddresses(list: seq<Peripheral>)
  {
    forall i, j :: 0 <= i < j < |list| ==> list[i].Address() != list[j].Address()
  }

  /** `List.indexOf(p)`: the first index whose entry `p` equals, or -1. */
  function IndexOf(list: seq<Peripheral>, p: Peripheral): (r: int)
    ensures -1 <= r < |list|
    ensures r == -1 <==> p.Address() !in Addresses(list)
    ensures r >= 0 ==> Equals(p, PeripheralObject(list[r]))
    ensures r >= 0 ==> forall i :: 0 <= i < r ==> !Equals(p, PeripheralObject(list[i]))
  {
    if list == [] then -1
    else if Equals(p, PeripheralObject(list[0])) then 0
    else
      var k := IndexOf(list[1..], p);
      assert Addresses(list) == {list[0].Address()} + Addresses(list[1..]) by {
        assert list == [list[0]] + list[1..];
      }
      if k == -1 then -1 else k + 1
  }

  /** The discovery callback's update: replace the entry at the same address, or append. */
  function Upsert(list: seq<Peripheral>, p: Peripheral): (r: seq<Peripheral>)
    ensures p in r
    ensures Addresses(r) == Addresses(list) + {p.Address()}
    ensures |r| == (if p.Address() in Addresses(list) then |list| else |list| + 1)
    ensures p.Address() !in Addresses(list) ==> r[|list|] == p
    ensures forall i :: 0 <= i < |list| ==>
              r[i] == list[i] || (list[i].Address() == p.Address() && r[i] == p)
    ensures NoDuplicateAddresses(list) ==> NoDuplicateAddresses(r)
  {
    var index := IndexOf(list, p);
    if index == -1 then
      var r := list + [p];
      assert Addresses(r) == Addresses(list) + {p.Address()} by {
        assert forall q :: q in r <==> q in list || q == p;
      }
      r
    else
      var r := list[index := p];
      assert r[index] == p;
      assert Addresses(r) == Addresses(list) + {p.Address()} by {
        forall a | a in Addresses(list) + {p.Address()} ensures a in Addresses(r) {
          if a != p.Address() {
            var q :| q in list && q.Address() == a;
            var i :| 0 <= i < |list| && list[i] == q;
            assert r[i] == q;
          } else {
            assert r[index] == p;
          }
        }
      }
      r
  }

  /** A rediscovery at an address just appended replaces that entry and adds none. */
  lemma RediscoveryReplacesLast(list: seq<Peripheral>, p1: Peripheral, p2: Peripheral)
    requires p1.Address() == p2.Address()
    requires p1.Address() !in Addresses(list)
    ensures Upsert(list, p1) == list + [p1]
    ensures Upsert(list + [p1], p2) == list + [p2]
  {
    var mid := list + [p1];
    var k := IndexOf(mid, p2);
    assert mid[|list|] == p1;
    assert p2.Address() in Addresses(mid);
    assert forall i :: 0 <= i < |list| ==> mid[i] == list[i] && list[i] in list;
    assert k == |list|;
    assert mid[k := p2] == list + [p2];
  }

  lemma AddressesCons(ps: seq<Peripheral>)
    requires ps != []
    ensures Addresses(ps) == {ps[0].Address()} + Addresses(ps[1..])
  {
    assert forall q :: q in ps <==> q == ps[0] || q in ps[1..];
  }

  /** The registry after a run of discoveries, each processed by `Upsert` in turn. */
  function UpsertAll(list: seq<Peripheral>, ps: seq<Peripheral>): seq<Peripheral>
    decreases ps
  {
    if ps == [] then list else UpsertAll(Upsert(list, ps[0]), ps[1..])
  }

  /** The most recently discovered peripheral at address `a`, if any. */
  function Latest(ps: seq<Peripheral>, a: string): (r: Option<Peripheral>)
  {
    if ps == [] then None
    else
      var later := Latest(ps[1..], a);
      if later.Some? then later
      else if ps[0].Address() == a then Some(ps[0])
      else None
  }

  lemma {:induction false} LatestFound(ps: seq<Peripheral>, a: string)
    ensures Latest(ps, a).Some? <==> a in Addresses(ps)
    ensures Latest(ps, a).Some? ==> Latest(ps, a).value in ps && Latest(ps, a).value.Address() == a
  {
    if ps != [] {
      LatestFound(ps[1..], a);
      AddressesCons(ps);
    }
  }

  /** Discoveries never remove an entry nor move an address to another index. */
  lemma {:induction false} UpsertAllKeepsIndices(list: seq<Peripheral>, ps: seq<Peripheral>)
    decreases ps
    ensures |list| <= |UpsertAll(list, ps)|
    ensures forall i :: 0 <= i < |list| ==> UpsertAll(list, ps)[i].Address() == list[i].Address()
  {
    if ps != [] {
      UpsertAllKeepsIndices(Upsert(list, ps[0]), ps[1..]);
    }
  }

  /** A run of discoveries keeps one entry per address and holds exactly the addresses seen. */
  lemma {:induction false} UpsertAllDistinct(list: seq<Peripheral>, ps: seq<Peripheral>)
    requires NoDuplicateAddresses(list)
    decreases ps
    ensures NoDuplicateAddresses(UpsertAll(list, ps))
    ensures Addresses(UpsertAll(list, ps)) == Addresses(list) + Addresses(ps)
  {
    if ps != [] {
      var mid := Upsert(list, ps[0]);
      UpsertAllDistinct(mid, ps[1..]);
      AddressesCons(ps);
      assert UpsertAll(list, ps) == UpsertAll(mid, ps[1..]);
    }
  }

  /** An entry whose address was not rediscovered is left exactly as it was. */
  lemma {:induction false} UpsertAllUntouched(list: seq<Peripheral>, ps: seq<Peripheral>, i: nat)
    requires i < |list|
    requires Latest(ps, list[i].Address()).None?
    decreases ps
    ensures i < |UpsertAll(list, ps)| && UpsertAll(list, ps)[i] == list[i]
  {
    UpsertAllKeepsIndices(list, ps);
    if ps != [] {
      assert Latest(ps[1..], list[i].Address()).None?;
      assert ps[0].Address() != list[i].Address();
      UpsertAllUntouched(Upsert(list, ps[0]), ps[1..], i);
    }
  }

  /** Every entry whose address was discovered is the latest peripheral seen at it. */
  lemma {:induction false} UpsertAllLatest(list: seq<Peripheral>, ps: seq<Peripheral>, q: Peripheral)
    requires NoDuplicateAddresses(list)
    requires q in UpsertAll(list, ps)
    requires Latest(ps, q.Address()).Some?
    decreases ps
    ensures q == Latest(ps, q.Address()).value
  {
    var mid := Upsert(list, ps[0]);
    var r := UpsertAll(mid, ps[1..]);
    if Latest(ps[1..], q.Address()).Some? {
      UpsertAllLatest(mid, ps[1..], q);
    } else {
      assert Latest(ps, q.Address()) == Some(ps[0]);
      var k := IndexOf(mid, ps[0]);
      assert mid[k] == ps[0] by {
        var j :| 0 <= j < |mid| && mid[j] == ps[0];
      }
      UpsertAllUntouched(mid, ps[1..], k);
      UpsertAllDistinct(mid, ps[1..]);
      var j :| 0 <= j < |r| && r[j] == q;
      assert j == k;
    }
  }

  /** The registry built from an empty list by a run of discoveries. */
  function Collect(ps: seq<Peripheral>): seq<Peripheral>
  {
    UpsertAll([], ps)
  }

  lemma {:induction false} AddressCountBound(list: seq<Peripheral>)
    ensures |Addresses(list)| <= |list|
    ensures NoDuplicateAddresses(list) ==> |Addresses(list)| == |list|
  {
    if list != [] {
      var init := list[..|list| - 1];
      var last := list[|list| - 1];
      AddressCountBound(init);
      assert list == init + [last];
      assert Addresses(list) == Addresses(init) + {last.Address()};
      if NoDuplicateAddresses(list) {
        assert last.Address() !in Addresses(init);
      }
    }
  }

  /**
   * The list reported after any run of discoveries holds exactly one entry per
   * distinct address seen, so it is never longer than the number of distinct
   * addresses, nor than the number of discoveries.
   */
  lemma CollectSpec(ps: seq<Peripheral>)
    ensures NoDuplicateAddresses(Collect(ps))
    ensures Addresses(Collect(ps)) == Addresses(ps)
    ensures |Collect(ps)| == |Addresses(ps)| <= |ps|
    ensures forall q :: q in Collect(ps) ==> Latest(ps, q.Address()) == Some(q)
  {
    UpsertAllDistinct([], ps);
    AddressCountBound(Collect(ps));
    AddressCountBound(ps);
    forall q | q in Collect(ps) ensures Latest(ps, q.Address()) == Some(q) {
      LatestFound(ps, q.Address());
      UpsertAllLatest([], ps, q);
    }
  }
}

=== FILE: uuids.dfy ===
/**
 * Identifiers of services, characteristics and descriptors.
 * A `java.util.UUID` is a 128-bit value whose `equals` compares its two
 * 64-bit halves; a `ParcelUuid` is the parcelable wrapper the scan record
 * hands out.
 */
module Uuids {

  datatype Uuid = Uuid(mostSigBits: int, leastSigBits: int)

  datatype ParcelUuid = ParcelUuid(uuid: Uuid)

  /** `List<UUID>.contains`: a linear search comparing with `equals`. */
  function Contains(s: seq<Uuid>, u: Uuid): (r: bool)
    ensures r <==> exists i :: 0 <= i < |s| && s[i] == u
  {
    if s == [] then false
    else if s[0] == u then true
    else
      var r := Contains(s[1..], u);
      assert r ==> exists i :: 0 <= i < |s| && s[i] == u by {
        if r {
          var i :| 0 <= i < |s[1..]| && s[1..][i] == u;
          assert s[i + 1] == u;
        }
      }
      r
  }
}
